=== FILE: README.md ===
# ChipIt session logic in Dafny

ChipIt is a browser mini-casino played with points. The player starts with
1000 points. They can pick Heads or Tails and bet on a coin flip, which pays
twice the bet. They can bet on a die face, where an exact match pays six
times the bet. A bonus button credits 100 points once between resets, and a
reset button restores the starting balance. An activity feed shows the last
eight events, newest first. The balance and the username survive a page
reload through the browser's key-value storage; everything else lasts one
page session.

This project models that logic as pure functions and proves properties of
them. It covers the session state, loading the stored balance and username,
recording into the activity feed, the username submit rule, the bonus and
reset buttons, and the two wagers.

Modules:

- `Wrappers`: `Option` and `Result`.
- `JsText`: the parts of JavaScript's string and number behaviour the
  handlers depend on.
  - `ParseInt10` is `parseInt(text, 10)`: it skips the leading white space
    and line terminators of ECMA-262, takes an optional sign, then the
    longest run of decimal digits. NaN is `None`.
  - `Trim` is `String.prototype.trim`.
  - `ShowInt` is `String(n)` for an integer.
- `Activity`: the eight-entry, newest-first feed.
- `Game`: the `Session` record (balance, selected side, bonus flag, feed) and
  the handlers of the coin flip, the dice roll, the bonus and the reset.
  Each handler returns `Ok` with the new session, or `Err` with the reason
  it turned the event down.
- `App`: the page. It adds the displayed username and the two stored strings,
  and covers startup, the username form, and a `Step`/`Run` interpreter over
  user events. A rejected event leaves the page unchanged. The module proves
  the invariant that holds of every reachable page.
- `Scenarios`: fixed inputs worked through the model.

The random draws are arguments: the coin's index into `["heads", "tails"]`
and the die face 1..6. The clock reading that prefixes a feed entry is an
opaque string carried by the event. Storage is a pair of optional strings.

Three behaviours of the code are easy to misread; the model keeps them as
written:

- Reset does not clear the selected coin side. The handler at
  script.js:157-169 never assigns `selectedChoice`.
- The dice pick is not range-checked. The handler at script.js:236-273
  validates only the bet. A pick that is NaN or outside 1..6 simply never
  matches the roll, so the bet is lost (`Game.OffRangePickAlwaysLoses`).
- A winning flip nets the bet, not twice the bet. The bet is debited
  (line 207), then twice the bet is credited (lines 217-218): a 50-point win
  from 1000 ends at 1050 (`Scenarios.CoinFlipWin`), while its feed line
  says "WON 100" (`Scenarios.CoinFlipWinEntry`).

## Model

| member | source | states |
|---|---|---|
| JsText.SkipWhite | script.js:18 | parseInt's first step drops a prefix made only of white space and line terminators, and what remains does not start with one |
| JsText.Trim | script.js:31-32 | trim is the text with its leading white space skipped and only white space cut from its end; neither end of the result is white space, and it is empty exactly when the text is all white space |
| JsText.TrimPadded | script.js:121 | trimming text with any white-space padding gives back the unpadded text, when that text has no white space at its ends |
| JsText.TrimIdempotent | script.js:31-32 | trimming twice is the same as trimming once, so a stored trimmed name reloads unchanged |
| JsText.ParseInt10 | script.js:18 | parseInt gives a number exactly when, after the leading white space, the text starts with a digit or with a sign followed by a digit; a negative result needs a leading "-" |
| JsText.DigitPrefix | script.js:186 | parseInt reads the longest prefix of decimal digits: a prefix, all digits, followed by a non-digit or the end |
| JsText.ParseInt10Unsigned | script.js:186 | white space, then digits, then a non-digit tail parses to the value of the digits; the tail is ignored |
| JsText.ParseInt10Signed | script.js:237 | white space, a sign, digits, then a non-digit tail parses to the digits' value, negated for "-" |
| JsText.ParseInt10NoDigits | script.js:194 | text whose first non-white character is neither a sign nor a digit parses to NaN |
| JsText.ParseInt10SignNoDigits | script.js:240 | a sign not followed by a digit parses to NaN |
| JsText.ShowNat | script.js:26 | String(n) of a natural number is a non-empty digit string; a string of two or more digits never starts with "0", and "0" alone stands for 0, so with ShowNatValue String(0) is exactly "0" |
| JsText.ShowInt | script.js:26 | String(n) starts with "-" exactly for negative n, followed by decimal digits with no leading zero; for n >= 0 a string of two or more digits never starts with "0" |
| JsText.ShowNatValue | script.js:26 | the digits String(n) writes have value n |
| JsText.ParseShowInt | script.js:18-20 | parseInt(String(n), 10) gives back n for every integer of the model (exact and unbounded), so a saved balance is read back exactly |
| Activity.Entry | script.js:73-74 | a feed line is the time, then " — ", then the text, with nothing added or dropped |
| Activity.Record | script.js:72-82 | an entry goes to the front of the feed; the earlier entries follow, losing the oldest when the feed would exceed eight |
| Activity.RecordAllNewestFirst | script.js:76-82 | from a feed of at most eight, any run of recordings leaves the first eight of (entries newest first, then the old feed) |
| Activity.RecordAllKeepsMostRecent | script.js:79-82 | after eight or more recordings the feed holds exactly the eight most recent entries, most recent first |
| Game.ValidateBet | script.js:194-204 | a bet is accepted if and only if it parses to an integer in 1..balance; NaN or non-positive is checked first and reported as invalid, a bet over the balance as insufficient funds |
| Game.CoinText | script.js:214-223 | the coin feed line reports the bet and the side shown, then "WON" and twice the bet on a win, or "LOST" and the bet on a loss |
| Game.DiceText | script.js:258-267 | the dice feed line reports the bet, the pick as parsed ("NaN" when it is not a number) and the face rolled, then "WON" and six times the bet on a win, or "LOST" and the bet on a loss |
| Game.SelectSide | script.js:174-180 | choosing a side replaces any earlier choice and changes nothing else |
| Game.PlayCoinFlip | script.js:184-229 | with no side chosen the flip is refused; otherwise it is refused exactly when the bet is invalid; an accepted flip nets +bet on a match and -bet otherwise, never goes negative, keeps the side and bonus flag, and records one feed entry |
| Game.PlayDiceRoll | script.js:236-273 | the roll is refused exactly when the bet is invalid; an accepted roll nets +5*bet when the pick parses to the rolled face and -bet otherwise, never goes negative, and records one feed entry |
| Game.ClaimBonus | script.js:139-155 | the bonus is refused exactly when already claimed; otherwise it credits exactly 100, sets the flag and records one entry |
| Game.Reset | script.js:157-169 | reset always sets the balance to 1000 and clears the bonus flag, keeps the selected side, and records one entry |
| Game.OffRangePickAlwaysLoses | script.js:238-267 | a dice pick that is NaN or outside 1..6 never wins: every accepted roll with it costs the bet |
| App.LoadBalance | script.js:15-23 | a stored value is adopted exactly when it parses to a non-negative integer; absent, NaN or negative keeps the current balance |
| App.LoadUsername | script.js:29-35 | the loaded name is the trimmed stored name when that is not blank, else "Guest"; it is never empty |
| App.Persist | script.js:25-27 | saving the balance writes String(balance) and changes nothing else; the next load of a non-negative balance reads it back exactly |
| App.Handle | script.js:119-273 | each event runs its own handler: a side click is SelectSide; a coin, dice or bonus click is refused exactly when the game handler refuses it, for the same reason, and otherwise takes the game handler's session; reset always succeeds with Reset's session; a username is refused exactly when blank. Only the username submit changes the name, shown or stored; the wager, bonus and reset handlers store the new balance; the username and side events leave balance and stored balance alone |
| App.Step | script.js:123-126 | a refused event changes nothing, as each handler's early return does (also lines 140-142, 188-204, 240-250); an accepted one gives the handler's page |
| App.Startup | script.js:99-108 | page load adopts the loaded balance and name, writes the balance back, starts with no side, the bonus available and one feed entry, and yields a valid page |
| App.SubmitUsername | script.js:119-132 | a name is refused exactly when it is blank; an accepted name is shown trimmed, stored trimmed, loads back as itself, logs one entry, and leaves balance, flag and side alone |
| App.StepPreservesValid | script.js:119-273 | every event keeps the balance non-negative, the feed within eight, the stored balance equal to the balance and the stored name loading as the shown one |
| App.RunPreservesValid | script.js:99-273 | any sequence of events from a valid page ends in a valid page |
| App.BalanceNeverNegative | script.js:99-273 | from any stored data and after any events, the balance is never negative and the feed never exceeds eight entries |
| App.ReloadRestores | script.js:15-35 | reloading any reachable page recovers exactly its balance (an exact, unbounded integer in the model) and its username |
| App.BonusTwice | script.js:139-147 | claiming twice in a row credits at most once, and the second click changes nothing |
| App.BonusAtMostOnce | script.js:139-147 | between resets the bonus is credited at most once, and not at all once claimed |
| App.ResetKeeps | script.js:157-169 | reset always succeeds: balance 1000 and stored, the bonus available, the username, stored name, selected side kept, and the earlier entries kept behind the new one when the feed is not full |
| Scenarios.ReadsAs | script.js:186 | "50", "10", "4", "0", "-5" and "1001" parse to their values |
| Scenarios.NotANumber | script.js:194 | "abc" parses to NaN |
| Scenarios.CoinFlipWin | script.js:207-218 | a 50-point winning flip from 1000 is accepted and ends at 1050 |
| Scenarios.CoinFlipLoss | script.js:207-223 | a 50-point losing flip from 1000 ends at 950 |
| Scenarios.CoinTextWon | script.js:214-220 | the feed text of a 50-point flip that shows heads on heads is "Coin Flip: bet 50, result HEADS — WON 100" |
| Scenarios.CoinTextLost | script.js:214-223 | the feed text of a 50-point flip that shows tails on heads is "Coin Flip: bet 50, result TAILS — LOST 50" |
| Scenarios.CoinFlipWinEntry | script.js:214-228 | the winning flip records exactly one feed line, ending "WON 100" |
| Scenarios.CoinFlipLossEntry | script.js:214-228 | the losing flip records exactly one feed line, ending "LOST 50" |
| Scenarios.DiceRollFromFiveHundred | script.js:253-262 | pick 4, bet 10 from 500: rolling 4 ends at 550, rolling 1 at 490 |
| Scenarios.DiceTextWon | script.js:258-264 | the feed text of a 10-point roll that picks 4 and rolls 4 is "Dice Roll: bet 10, picked 4, rolled 4 — WON 60" |
| Scenarios.DiceTextNaN | script.js:258-267 | the feed text of a 10-point losing roll whose pick is not a number is "Dice Roll: bet 10, picked NaN, rolled 3 — LOST 10" |
| Scenarios.DiceRollNaNPick | script.js:237-272 | a 10-point roll with the pick "abc" on 500 points is accepted, ends at 490, and records exactly one line, the dice line with no parsed pick |
| Scenarios.BadBetsRefused | script.js:194-204 | "abc", "0" and "-5" are refused as invalid bets and "1001" on 1000 points for lack of funds, with the same reason in the coin flip and the dice roll |
| Scenarios.LoadBalanceExamples | script.js:15-23 | a stored "-5" or "abc" falls back to 1000, a stored "1001" is adopted, nothing stored gives 1000 |

## Left out

- The DOM: text of elements, button labels, enabling the bonus button, and
  rebuilding the feed's list items. They are presentation only.
- Alerts and the messages shown in the result areas. They do not affect the
  state; a rejection is an `Err` value instead.
- `Math.random`: the coin index and the die face are parameters.
- `new Date().toLocaleTimeString()`: the time is an opaque string.
- `localStorage` itself: it is a pair of optional strings. A failing or
  unavailable store is not modelled.
- Event wiring: the interpreter `App.Step` stands in for the listeners.
- Filling the username input with the loaded name at startup
  (script.js:114-116). It only presets the input's text.
- JsText.ParseInt10: does not model double-precision numbers. Values are
  unbounded integers, so digit strings past 2^53 lose no precision, and
  "-0" reads as 0. The state decisions are the same for -0 and 0.
- Game.PlayCoinFlip: the selected side is an enumeration, not the
  `"heads"`/`"tails"` strings the buttons carry.
- JsText.ShowInt: does not model `String(n)` switching to exponent form at
  1e21 ("1e+21"), which parseInt would read back as 1. Numbers are exact
  unbounded integers in the model.
- App.ReloadRestores: holds for the model's exact integers only. In the
  browser a balance of 1e21 or more would be saved in exponent form and
  reload as a different number.
- Game.PlayCoinFlip: the balance arithmetic (script.js:145, 207, 218, 253,
  262) is double-precision in the browser and exact only below 2^53; the
  model's integers are exact at every size. The same holds for
  Game.PlayDiceRoll and Game.ClaimBonus.

=== FILE: activity.dfy ===
/**
  The recent-activity feed: a newest-first list of timestamped strings that
  never holds more than eight entries. It lives for one page session only.
 */
module Activity {

  /** The feed keeps at most this many entries. */
  const Capacity: nat := 8

  /** One feed line: the local time, an em dash, then the text. The time is
      whatever the clock printed; the model treats it as an opaque string. */
  function Entry(time: string, text: string): (r: string)
    ensures |r| == |time| + 3 + |text|
    ensures r[..|time|] == time && r[|time|..|time| + 3] == " \U{2014} "
    ensures r[|r| - |text|..] == text
  {
    time + " \U{2014} " + text
  }

  /** Recording an entry: it goes to the front, and when that makes the feed
      longer than Capacity the oldest (last) entry falls off. */
  function Record(log: seq<string>, entry: string): (r: seq<string>)
    ensures r != [] && r[0] == entry
    ensures |log| < Capacity ==> r[1..] == log
    ensures |log| >= Capacity ==> r[1..] == log[..|log| - 1]
    ensures |log| <= Capacity ==> |r| <= Capacity
  {
    var grown := [entry] + log;
    if |grown| > Capacity then grown[..|grown| - 1] else grown
  }

  /** Records `entries` one after another, oldest first. */
  function RecordAll(log: seq<string>, entries: seq<string>): seq<string> {
    if entries == [] then log
    else Record(RecordAll(log, entries[..|entries| - 1]), entries[|entries| - 1])
  }

  /** The first Capacity elements of `xs`, or all of them if there are fewer. */
  function Newest(xs: seq<string>): (r: seq<string>)
    ensures |r| <= Capacity
  {
    if |xs| <= Capacity then xs else xs[..Capacity]
  }

  /** `xs` back to front. */
  function Reverse(xs: seq<string>): (r: seq<string>)
    ensures |r| == |xs|
    ensures forall i :: 0 <= i < |xs| ==> r[i] == xs[|xs| - 1 - i]
  {
    if xs == [] then [] else [xs[|xs| - 1]] + Reverse(xs[..|xs| - 1])
  }

  /** Recording onto a feed that already holds the newest part of `xs` gives
      the newest part of `xs` with the entry in front. */
  lemma RecordNewest(xs: seq<string>, entry: string)
    ensures Record(Newest(xs), entry) == Newest([entry] + xs)
  {
  }

  /** Starting from a feed within capacity, recording any number of entries
      leaves exactly the Capacity most recent items, newest first: the
      entries in reverse order, followed by what remains of the old feed. */
  lemma {:induction false} RecordAllNewestFirst(log: seq<string>, entries: seq<string>)
    requires |log| <= Capacity
    ensures RecordAll(log, entries) == Newest(Reverse(entries) + log)
  {
    if entries == [] {
      assert Reverse(entries) + log == log;
    } else {
      var earlier := entries[..|entries| - 1];
      var last := entries[|entries| - 1];
      RecordAllNewestFirst(log, earlier);
      RecordNewest(Reverse(earlier) + log, last);
      assert Reverse(entries) == [last] + Reverse(earlier);
      assert [last] + (Reverse(earlier) + log) == Reverse(entries) + log;
    }
  }

  /** After at least Capacity recordings the feed holds exactly the Capacity
      most recent entries, most recent first; nothing of the old feed is left. */
  lemma RecordAllKeepsMostRecent(log: seq<string>, entries: seq<string>)
    requires |log| <= Capacity
    requires |entries| >= Capacity
    ensures |RecordAll(log, entries)| == Capacity
    ensures forall i :: 0 <= i < Capacity ==> RecordAll(log, entries)[i] == entries[|entries| - 1 - i]
  {
    RecordAllNewestFirst(log, entries);
    var all := Reverse(entries) + log;
    assert forall i :: 0 <= i < Capacity ==> all[i] == Reverse(entries)[i];
  }
}

=== FILE: app.dfy ===
/**
  The page as a whole: the session, the displayed username and the two
  persisted strings. Startup recovers balance and username from storage;
  every user event is a transition of the page. Balance and username are the
  only persisted values; the balance is written back after every change.
 */
module App {
  import opened Wrappers
  import opened JsText
  import Activity
  import Game

  /** The two persisted strings (the browser's key-value storage); `None` is
      a key that was never written. */
  datatype Store = Store(balance: Option<string>, username: Option<string>)

  datatype Page = Page(session: Game.Session, username: string, store: Store)

  /** The name shown when storage holds none. */
  const DefaultUsername: string := "Guest"
  const StartText: string := "Session started. Have fun! \U{1F3AE}"

  function UsernameText(name: string): string {
    "Username set to \"" + name + "\"."
  }

  /** Recovering the balance: a stored value that parses to a non-negative
      integer is adopted; anything else (absent, NaN, negative) keeps the
      current balance. */
  function LoadBalance(stored: Option<string>, current: int): (r: int)
    ensures stored.Some? && ParseInt10(stored.value).Some? && ParseInt10(stored.value).value >= 0
      ==> r == ParseInt10(stored.value).value
    ensures stored.None? || ParseInt10(stored.value).None? || ParseInt10(stored.value).value < 0
      ==> r == current
  {
    match stored
    case None => current
    case Some(text) =>
      match ParseInt10(text)
      case Some(value) => if value >= 0 then value else current
      case None => current
  }

  /** Recovering the username: the trimmed stored value when it is not blank,
      else DefaultUsername. The result is never empty. */
  function LoadUsername(stored: Option<string>): (r: string)
    ensures r != []
    ensures stored.Some? && Trim(stored.value) != [] ==> r == Trim(stored.value)
    ensures stored.None? || AllWhite(stored.value) ==> r == DefaultUsername
  {
    if stored.Some? && |Trim(stored.value)| > 0 then Trim(stored.value) else DefaultUsername
  }

  /** Writes the current balance to storage as `String(balance)`; the next
      page load reads a non-negative balance back exactly. Nothing else
      changes. */
  function Persist(p: Page): (r: Page)
    ensures r.session == p.session && r.username == p.username
    ensures r.store.username == p.store.username
    ensures r.store.balance == Some(ShowInt(p.session.balance))
    ensures p.session.balance >= 0 ==>
      forall current :: LoadBalance(r.store.balance, current) == p.session.balance
  {
    ParseShowInt(p.session.balance);
    p.(store := p.store.(balance := Some(ShowInt(p.session.balance))))
  }

  /** What holds of every page reachable from startup: the balance is never
      negative, the feed is within capacity, the stored balance is the
      balance, and the stored username loads as the displayed one. */
  predicate Valid(p: Page) {
    && p.session.balance >= 0
    && |p.session.log| <= Activity.Capacity
    && p.store.balance == Some(ShowInt(p.session.balance))
    && LoadUsername(p.store.username) == p.username
  }

  /** Page load: recover the balance (defaulting to the start balance) and
      write it back, recover the username, start with no side selected, the
      bonus available and a single feed entry. */
  function Startup(store: Store, time: string): (p: Page)
    ensures p.session.balance == LoadBalance(store.balance, Game.StartBalance)
    ensures p.username == LoadUsername(store.username)
    ensures p.session.selectedChoice.None? && !p.session.bonusClaimed
    ensures p.session.log == [Activity.Entry(time, StartText)]
    ensures p.store.username == store.username
    ensures Valid(p)
  {
    var balance := LoadBalance(store.balance, Game.StartBalance);
    var session := Game.Session(balance, None, false, Activity.Record([], Activity.Entry(time, StartText)));
    Persist(Page(session, LoadUsername(store.username), store))
  }

  /** The user events; those that write to the feed carry the clock reading. */
  datatype Event =
    | UsernameSubmitted(raw: string, time: string)
    | SideChosen(side: Game.Side)
    | CoinPlayed(bet: string, flip: Game.CoinIndex, time: string)
    | DicePlayed(bet: string, pick: string, face: Game.DieFace, time: string)
    | BonusClicked(time: string)
    | ResetClicked(time: string)

  /** Runs the handler of one event: each event runs its own game handler and
      is refused exactly when that handler refuses it, for the same reason.
      Only the username, wager and bonus events can be turned down. The
      handlers that touch the balance persist it; the username handler is the
      only one that changes the name, shown or stored; choosing a side touches
      neither balance nor storage. */
  function Handle(p: Page, e: Event): (r: Result<Page, Game.Rejection>)
    ensures e.UsernameSubmitted? ==> (r.Err? <==> AllWhite(e.raw))
    ensures e.UsernameSubmitted? && r.Err? ==> r.error == Game.EmptyUsername
    ensures e.SideChosen? ==> r == Ok(p.(session := Game.SelectSide(p.session, e.side)))
    ensures e.CoinPlayed? ==>
      var g := Game.PlayCoinFlip(p.session, e.bet, e.flip, e.time);
      && (r.Err? <==> g.Err?)
      && (r.Err? ==> r.error == g.error)
      && (r.Ok? ==> r.value.session == g.value)
    ensures e.DicePlayed? ==>
      var g := Game.PlayDiceRoll(p.session, e.bet, e.pick, e.face, e.time);
      && (r.Err? <==> g.Err?)
      && (r.Err? ==> r.error == g.error)
      && (r.Ok? ==> r.value.session == g.value)
    ensures e.BonusClicked? ==>
      var g := Game.ClaimBonus(p.session, e.time);
      && (r.Err? <==> g.Err?)
      && (r.Ok? ==> r.value.session == g.value)
    ensures e.ResetClicked? ==> r.Ok? && r.value.session == Game.Reset(p.session, e.time)
    ensures r.Err? ==> e.UsernameSubmitted? || e.CoinPlayed? || e.DicePlayed? || e.BonusClicked?
    ensures r.Ok? && !e.UsernameSubmitted? ==>
      r.value.username == p.username && r.value.store.username == p.store.username
    ensures r.Ok? && !e.UsernameSubmitted? && !e.SideChosen? ==>
      r.value.store.balance == Some(ShowInt(r.value.session.balance))
    ensures r.Ok? && (e.UsernameSubmitted? || e.SideChosen?) ==>
      r.value.session.balance == p.session.balance && r.value.store.balance == p.store.balance
  {
    match e
    case UsernameSubmitted(raw, time) =>
      var name := Trim(raw);
      if |name| == 0 then Err(Game.EmptyUsername)
      else
        var log := Activity.Record(p.session.log, Activity.Entry(time, UsernameText(name)));
        Ok(p.(session := p.session.(log := log), username := name,
              store := p.store.(username := Some(name))))
    case SideChosen(side) =>
      Ok(p.(session := Game.SelectSide(p.session, side)))
    case CoinPlayed(bet, flip, time) =>
      (match Game.PlayCoinFlip(p.session, bet, flip, time)
       case Err(why) => Err(why)
       case Ok(s) => Ok(Persist(p.(session := s))))
    case DicePlayed(bet, pick, face, time) =>
      (match Game.PlayDiceRoll(p.session, bet, pick, face, time)
       case Err(why) => Err(why)
       case Ok(s) => Ok(Persist(p.(session := s))))
    case BonusClicked(time) =>
      (match Game.ClaimBonus(p.session, time)
       case Err(why) => Err(why)
       case Ok(s) => Ok(Persist(p.(session := s))))
    case ResetClicked(time) =>
      Ok(Persist(p.(session := Game.Reset(p.session, time))))
  }

  /** One event as the user sees it: a rejected event leaves the page as it
      was (its message is presentation only). */
  function Step(p: Page, e: Event): (r: Page)
    ensures Handle(p, e).Err? ==> r == p
    ensures Handle(p, e).Ok? ==> r == Handle(p, e).value
  {
    match Handle(p, e)
    case Ok(q) => q
    case Err(_) => p
  }

  /** A sequence of events, first to last. */
  function Run(p: Page, events: seq<Event>): Page
    decreases |events|
  {
    if events == [] then p else Run(Step(p, events[0]), events[1..])
  }

  /** How many events of the sequence were accepted bonus claims. */
  function BonusCredits(p: Page, events: seq<Event>): nat
    decreases |events|
  {
    if events == [] then 0
    else
      var credit := if events[0].BonusClicked? && Handle(p, events[0]).Ok? then 1 else 0;
      credit + BonusCredits(Step(p, events[0]), events[1..])
  }

  // ----- Lemmas -----

  /** Username submit: a blank name is turned down; any other is stored
      trimmed, shown, logged once, and is what the next page load shows.
      Balance, bonus flag and selection are not touched. */
  lemma SubmitUsername(p: Page, raw: string, time: string)
    ensures Handle(p, UsernameSubmitted(raw, time)).Err? <==> AllWhite(raw)
    ensures !AllWhite(raw) ==>
      var q := Step(p, UsernameSubmitted(raw, time));
      && q.username == Trim(raw)
      && q.store.username == Some(Trim(raw))
      && LoadUsername(q.store.username) == Trim(raw)
      && q.store.balance == p.store.balance
      && q.session.balance == p.session.balance
      && q.session.bonusClaimed == p.session.bonusClaimed
      && q.session.selectedChoice == p.session.selectedChoice
      && q.session.log == Activity.Record(p.session.log, Activity.Entry(time, UsernameText(Trim(raw))))
  {
  }

  /** Every event keeps the page valid. */
  lemma StepPreservesValid(p: Page, e: Event)
    requires Valid(p)
    ensures Valid(Step(p, e))
  {
    match e
    case UsernameSubmitted(raw, time) => SubmitUsername(p, raw, time);
    case _ =>
  }

  /** Every sequence of events keeps the page valid. */
  lemma {:induction false} RunPreservesValid(p: Page, events: seq<Event>)
    requires Valid(p)
    ensures Valid(Run(p, events))
    decreases |events|
  {
    if events != [] {
      var q := Step(p, events[0]);
      assert Valid(q) by {
        StepPreservesValid(p, events[0]);
      }
      RunPreservesValid(q, events[1..]);
    }
  }

  /** Whatever is in storage and whatever the user does afterwards, the
      balance is never negative and the feed never exceeds its capacity. */
  lemma BalanceNeverNegative(store: Store, time: string, events: seq<Event>)
    ensures Run(Startup(store, time), events).session.balance >= 0
    ensures |Run(Startup(store, time), events).session.log| <= Activity.Capacity
  {
    RunPreservesValid(Startup(store, time), events);
  }

  /** Reloading the page recovers the balance and username it had. */
  lemma ReloadRestores(p: Page, time: string)
    requires Valid(p)
    ensures Startup(p.store, time).session.balance == p.session.balance
    ensures Startup(p.store, time).username == p.username
  {
    ParseShowInt(p.session.balance);
  }

  /** Claiming twice in a row credits the bonus at most once; the second
      click changes nothing. */
  lemma BonusTwice(p: Page, t1: string, t2: string)
    ensures var once := Step(p, BonusClicked(t1));
      && Step(once, BonusClicked(t2)) == once
      && once.session.balance == p.session.balance + (if p.session.bonusClaimed then 0 else Game.BonusAmount)
  {
  }

  /** Between resets the bonus is credited at most once, and never when it
      was already claimed at the start. */
  lemma {:induction false} BonusAtMostOnce(p: Page, events: seq<Event>)
    requires forall i :: 0 <= i < |events| ==> !events[i].ResetClicked?
    ensures BonusCredits(p, events) <= (if p.session.bonusClaimed then 0 else 1)
    ensures p.session.bonusClaimed ==> Run(p, events).session.bonusClaimed
    decreases |events|
  {
    if events != [] {
      var q := Step(p, events[0]);
      assert p.session.bonusClaimed ==> q.session.bonusClaimed;
      BonusAtMostOnce(q, events[1..]);
      if events[0].BonusClicked? && Handle(p, events[0]).Ok? {
        assert q.session.bonusClaimed;
      }
    }
  }

  /** Reset always succeeds: balance back to the start balance (and stored),
      bonus available again; username, its stored value, the selected side
      and the earlier feed entries stay. */
  lemma ResetKeeps(p: Page, time: string)
    ensures Handle(p, ResetClicked(time)).Ok?
    ensures var q := Step(p, ResetClicked(time));
      && q.session.balance == Game.StartBalance
      && q.store.balance == Some(ShowInt(Game.StartBalance))
      && !q.session.bonusClaimed
      && q.username == p.username
      && q.store.username == p.store.username
      && q.session.selectedChoice == p.session.selectedChoice
      && q.session.log[0] == Activity.Entry(time, Game.ResetText)
      && (|p.session.log| < Activity.Capacity ==> q.session.log[1..] == p.session.log)
  {
  }
}

=== FILE: game.dfy ===
/**
  The in-memory session and its transitions: choosing a coin side, the coin
  flip and dice wagers, the one-shot bonus and the balance reset. Each handler
  runs to completion and is a plain function of the current session and its
  inputs; the random draw arrives as an argument.
 */
module Game {
  import opened Wrappers
  import opened JsText
  import Activity

  /** The balance a new player starts with, and the balance a reset restores. */
  const StartBalance: int := 1000
  /** The fixed credit of the bonus button. */
  const BonusAmount: int := 100
  /** A winning coin flip credits this many times the (already debited) bet. */
  const CoinPayout: int := 2
  /** A winning dice roll credits this many times the (already debited) bet. */
  const DicePayout: int := 6

  datatype Side = Heads | Tails

  /** The side as the feed prints it (upper case). */
  function SideLabel(side: Side): string {
    match side
    case Heads => "HEADS"
    case Tails => "TAILS"
  }

  /** The random index into the two coin outcomes, heads first. */
  type CoinIndex = i: int | 0 <= i < 2

  function CoinOutcome(i: CoinIndex): Side {
    if i == 0 then Heads else Tails
  }

  /** A face of the die. */
  type DieFace = n: int | 1 <= n <= 6 witness 1

  /** The session-scoped state. Username and storage live with the page. */
  datatype Session = Session(
    balance: int,
    selectedChoice: Option<Side>,
    bonusClaimed: bool,
    log: seq<string>)

  /** Why a handler turned an event down. Each leaves the state untouched. */
  datatype Rejection =
    | NoSideSelected       // coin flip before a side was chosen
    | InvalidBet           // bet is NaN or not positive
    | InsufficientFunds    // bet exceeds the balance
    | BonusAlreadyClaimed  // bonus clicked again in the same session; silent
    | EmptyUsername        // submitted name is blank after trimming

  /** The bet rule both games share: the bet text must parse to a positive
      integer, checked first, and must not exceed the balance, checked next. */
  function ValidateBet(betInput: string, balance: int): (r: Result<int, Rejection>)
    ensures r.Ok? <==> ParseInt10(betInput).Some? && 0 < ParseInt10(betInput).value <= balance
    ensures r.Ok? ==> r.value == ParseInt10(betInput).value
    ensures r == Err(InvalidBet) <==> ParseInt10(betInput).None? || ParseInt10(betInput).value <= 0
    ensures r.Err? ==> r.error == InvalidBet || r.error == InsufficientFunds
  {
    match ParseInt10(betInput)
    case None => Err(InvalidBet)
    case Some(bet) =>
      if bet <= 0 then Err(InvalidBet)
      else if bet > balance then Err(InsufficientFunds)
      else Ok(bet)
  }

  /** The tail of a wager's feed line: the credit on a win, the stake on a loss. */
  function Verdict(won: bool, winAmount: int, bet: int): string {
    if won then " \U{2014} WON " + ShowInt(winAmount) else " \U{2014} LOST " + ShowInt(bet)
  }

  /** The coin flip's feed line: it reports the bet and the side shown, then
      the credit (twice the bet) on a win or the stake on a loss. */
  function CoinText(bet: int, outcome: Side, won: bool): (r: string)
    ensures var head := "Coin Flip: bet " + ShowInt(bet) + ", result " + SideLabel(outcome);
      && |r| > |head| && r[..|head|] == head
      && r[|head|..] == (if won then " \U{2014} WON " + ShowInt(bet * 2) else " \U{2014} LOST " + ShowInt(bet))
  {
    "Coin Flip: bet " + ShowInt(bet) + ", result " + SideLabel(outcome)
      + Verdict(won, bet * CoinPayout, bet)
  }

  /** The dice roll's feed line: it reports the bet, the pick as parsed ("NaN"
      when it is not a number) and the face rolled, then the credit (six
      times the bet) on a win or the stake on a loss. */
  function DiceText(bet: int, picked: Option<int>, rolled: DieFace, won: bool): (r: string)
    ensures var head := "Dice Roll: bet " + ShowInt(bet) + ", picked "
        + (if picked.None? then "NaN" else ShowInt(picked.value)) + ", rolled " + ShowInt(rolled);
      && |r| > |head| && r[..|head|] == head
      && r[|head|..] == (if won then " \U{2014} WON " + ShowInt(bet * 6) else " \U{2014} LOST " + ShowInt(bet))
  {
    "Dice Roll: bet " + ShowInt(bet) + ", picked " + ShowNumber(picked)
      + ", rolled " + ShowInt(rolled) + Verdict(won, bet * DicePayout, bet)
  }

  const BonusText: string := "You claimed +" + ShowInt(BonusAmount) + " daily bonus! \U{1FA99}"
  const ResetText: string := "Balance reset to starting amount."

  /** Clicking a coin side: the new side replaces any earlier one. */
  function SelectSide(s: Session, side: Side): (r: Session)
    ensures r.selectedChoice == Some(side)
    ensures r.balance == s.balance && r.bonusClaimed == s.bonusClaimed && r.log == s.log
  {
    s.(selectedChoice := Some(side))
  }

  /** The coin flip. It checks, in this order, that a side is selected and
      that the bet is valid. An accepted bet is debited first; a win then
      credits twice the bet, so the net change is +bet on a win and -bet on a
      loss. Exactly one feed entry is recorded. */
  function PlayCoinFlip(s: Session, betInput: string, flip: CoinIndex, time: string): (r: Result<Session, Rejection>)
    ensures s.selectedChoice.None? ==> r == Err(NoSideSelected)
    ensures s.selectedChoice.Some? ==>
      (r.Err? <==> ValidateBet(betInput, s.balance).Err?)
      && (r.Err? ==> r.error == ValidateBet(betInput, s.balance).error)
    ensures r.Ok? ==>
      var bet := ParseInt10(betInput).value;
      var won := CoinOutcome(flip) == s.selectedChoice.value;
      && s.selectedChoice.Some?
      && 0 < bet <= s.balance
      && r.value.balance == (if won then s.balance + bet else s.balance - bet)
      && r.value.balance >= 0
      && r.value.selectedChoice == s.selectedChoice
      && r.value.bonusClaimed == s.bonusClaimed
      && r.value.log == Activity.Record(s.log, Activity.Entry(time, CoinText(bet, CoinOutcome(flip), won)))
  {
    if s.selectedChoice.None? then Err(NoSideSelected)
    else
      match ValidateBet(betInput, s.balance)
      case Err(e) => Err(e)
      case Ok(bet) =>
        var staked := s.balance - bet;
        var outcome := CoinOutcome(flip);
        var won := outcome == s.selectedChoice.value;
        var settled := if won then staked + bet * CoinPayout else staked;
        var entry := Activity.Entry(time, CoinText(bet, outcome, won));
        Ok(s.(balance := settled, log := Activity.Record(s.log, entry)))
  }

  /** The dice roll. The pick is parsed but never range-checked; only the
      bet is validated. An accepted bet is debited first; an exact match then
      credits six times the bet, so the net change is +5*bet on a match and
      -bet otherwise. Exactly one feed entry is recorded. */
  function PlayDiceRoll(s: Session, betInput: string, pickInput: string, face: DieFace, time: string): (r: Result<Session, Rejection>)
    ensures r.Err? <==> ValidateBet(betInput, s.balance).Err?
    ensures r.Err? ==> r.error == ValidateBet(betInput, s.balance).error
    ensures r.Ok? ==>
      var bet := ParseInt10(betInput).value;
      var won := ParseInt10(pickInput) == Some(face as int);
      && 0 < bet <= s.balance
      && r.value.balance == (if won then s.balance + 5 * bet else s.balance - bet)
      && r.value.balance >= 0
      && r.value.selectedChoice == s.selectedChoice
      && r.value.bonusClaimed == s.bonusClaimed
      && r.value.log == Activity.Record(s.log, Activity.Entry(time, DiceText(bet, ParseInt10(pickInput), face, won)))
  {
    var picked := ParseInt10(pickInput);
    match ValidateBet(betInput, s.balance)
    case Err(e) => Err(e)
    case Ok(bet) =>
      var staked := s.balance - bet;
      var won := picked == Some(face as int);
      var settled := if won then staked + bet * DicePayout else staked;
      var entry := Activity.Entry(time, DiceText(bet, picked, face, won));
      Ok(s.(balance := settled, log := Activity.Record(s.log, entry)))
  }

  /** The bonus button: turned down (silently) once claimed in this session;
      otherwise exactly BonusAmount is credited, the flag is set and one feed
      entry is recorded. */
  function ClaimBonus(s: Session, time: string): (r: Result<Session, Rejection>)
    ensures r.Err? <==> s.bonusClaimed
    ensures r.Err? ==> r.error == BonusAlreadyClaimed
    ensures r.Ok? ==>
      && r.value.balance == s.balance + BonusAmount
      && r.value.bonusClaimed
      && r.value.selectedChoice == s.selectedChoice
      && r.value.log == Activity.Record(s.log, Activity.Entry(time, BonusText))
  {
    if s.bonusClaimed then Err(BonusAlreadyClaimed)
    else
      Ok(s.(balance := s.balance + BonusAmount, bonusClaimed := true,
            log := Activity.Record(s.log, Activity.Entry(time, BonusText))))
  }

  /** The reset button: balance back to StartBalance and the bonus available
      again, whatever the state. The selected coin side and the earlier feed
      entries are kept; one entry is recorded. */
  function Reset(s: Session, time: string): (r: Session)
    ensures r.balance == StartBalance
    ensures !r.bonusClaimed
    ensures r.selectedChoice == s.selectedChoice
    ensures r.log == Activity.Record(s.log, Activity.Entry(time, ResetText))
  {
    s.(balance := StartBalance, bonusClaimed := false,
       log := Activity.Record(s.log, Activity.Entry(time, ResetText)))
  }

  /** A pick that does not parse to a face of the die can never win: every
      accepted roll costs the bet. */
  lemma OffRangePickAlwaysLoses(s: Session, betInput: string, pickInput: string, face: DieFace, time: string)
    requires ParseInt10(pickInput).None? || !(1 <= ParseInt10(pickInput).value <= 6)
    ensures var r := PlayDiceRoll(s, betInput, pickInput, face, time);
      r.Ok? ==> r.value.balance == s.balance - ParseInt10(betInput).value
  {
  }
}

=== FILE: js_text.dfy ===
/**
  The pieces of JavaScript's string and number handling the game relies on:
  `String.prototype.trim`, `parseInt(s, 10)` (section 19.2.5 of ECMA-262) and
  `String(n)` for integers.
 */
module JsText {
  import opened Wrappers

  /** WhiteSpace and LineTerminator code points of ECMA-262 (sections 12.2
      and 12.3), the set both `trim` and `parseInt` skip. */
  predicate IsWhite(c: char) {
    || c == '\t' || c == '\U{000B}' || c == '\U{000C}' || c == ' '
    || c == '\U{00A0}' || c == '\U{FEFF}'
    || c == '\n' || c == '\r' || c == '\U{2028}' || c == '\U{2029}'
    || c == '\U{1680}' || ('\U{2000}' <= c <= '\U{200A}')
    || c == '\U{202F}' || c == '\U{205F}' || c == '\U{3000}'
  }

  predicate IsDigit(c: char) {
    '0' <= c <= '9'
  }

  predicate IsSign(c: char) {
    c == '+' || c == '-'
  }

  predicate AllWhite(s: string) {
    forall i :: 0 <= i < |s| ==> IsWhite(s[i])
  }

  predicate AllDigits(s: string) {
    forall i :: 0 <= i < |s| ==> IsDigit(s[i])
  }

  function DigitValue(c: char): (d: nat)
    requires IsDigit(c)
    ensures d <= 9
  {
    c as int - '0' as int
  }

  function DigitChar(d: nat): (c: char)
    requires d <= 9
    ensures IsDigit(c) && DigitValue(c) == d
  {
    (d + '0' as int) as char
  }

  /** Drops the leading white space: the result is a suffix of `s` that does
      not start with white space, and everything before it is white space. */
  function SkipWhite(s: string): (r: string)
    ensures |r| <= |s| && r == s[|s| - |r|..]
    ensures forall i :: 0 <= i < |s| - |r| ==> IsWhite(s[i])
    ensures r == [] || !IsWhite(r[0])
  {
    if |s| > 0 && IsWhite(s[0]) then
      var r := SkipWhite(s[1..]);
      assert forall i :: 1 <= i < |s| - |r| ==> s[i] == s[1..][i - 1];
      r
    else s
  }

  /** Drops the trailing white space: the result is a prefix of `s` that does
      not end with white space, and everything after it is white space. */
  function TrimEnd(s: string): (r: string)
    ensures |r| <= |s| && r == s[..|r|]
    ensures forall i :: |r| <= i < |s| ==> IsWhite(s[i])
    ensures r == [] || !IsWhite(r[|r| - 1])
  {
    if |s| > 0 && IsWhite(s[|s| - 1]) then TrimEnd(s[..|s| - 1]) else s
  }

  /** `String.prototype.trim`: white space removed from both ends. The result
      is what is left of `s` once its leading white space is skipped and its
      trailing white space is cut off; it is empty exactly when `s` is all
      white space. */
  function Trim(s: string): (r: string)
    ensures |r| <= |SkipWhite(s)| && r == SkipWhite(s)[..|r|]
    ensures forall i :: |r| <= i < |SkipWhite(s)| ==> IsWhite(SkipWhite(s)[i])
    ensures |r| <= |s|
    ensures r == [] || (!IsWhite(r[0]) && !IsWhite(r[|r| - 1]))
    ensures r == [] <==> AllWhite(s)
  {
    var t := SkipWhite(s);
    assert t != [] ==> s[|s| - |t|] == t[0];
    TrimEnd(t)
  }

  /** The longest prefix of `s` made of decimal digits. */
  function DigitPrefix(s: string): (r: string)
    ensures |r| <= |s| && r == s[..|r|]
    ensures AllDigits(r)
    ensures |r| == |s| || !IsDigit(s[|r|])
  {
    if |s| > 0 && IsDigit(s[0]) then [s[0]] + DigitPrefix(s[1..]) else []
  }

  /** The number a string of decimal digits denotes (most significant first). */
  function DigitsValue(d: string): nat
    requires AllDigits(d)
  {
    if d == [] then 0 else 10 * DigitsValue(d[..|d| - 1]) + DigitValue(d[|d| - 1])
  }

  /** `parseInt(s, 10)`: skip leading white space, take an optional sign, then
      the longest run of decimal digits; no digits at all gives NaN (`None`).
      Numbers are unbounded integers here. */
  function ParseInt10(s: string): (r: Option<int>)
    ensures var t := SkipWhite(s);
      r.Some? <==> (t != [] && IsDigit(t[0])) || (|t| > 1 && IsSign(t[0]) && IsDigit(t[1]))
    ensures r.Some? && r.value < 0 ==> SkipWhite(s)[0] == '-'
  {
    ParseSigned(SkipWhite(s))
  }

  /** The part of `parseInt` after the leading white space is gone: a number
      exactly when it starts with a digit or with a sign and then a digit. */
  function ParseSigned(t: string): (r: Option<int>)
    ensures r.Some? <==> (t != [] && IsDigit(t[0])) || (|t| > 1 && IsSign(t[0]) && IsDigit(t[1]))
    ensures r.Some? && r.value < 0 ==> t[0] == '-'
  {
    var negative := |t| > 0 && t[0] == '-';
    var unsigned := if |t| > 0 && IsSign(t[0]) then t[1..] else t;
    var digits := DigitPrefix(unsigned);
    assert digits == [] <==> unsigned == [] || !IsDigit(unsigned[0]) by {
      if digits != [] {
        assert digits[0] == unsigned[0];
      }
    }
    if digits == [] then None
    else
      var magnitude: int := DigitsValue(digits);
      Some(if negative then -magnitude else magnitude)
  }

  /** `String(n)` for a non-negative integer: decimal, no leading zeros. */
  function ShowNat(n: nat): (r: string)
    ensures r != [] && AllDigits(r)
    ensures r[0] == '0' ==> n == 0
    ensures |r| > 1 ==> r[0] != '0'
  {
    if n < 10 then [DigitChar(n)] else ShowNat(n / 10) + [DigitChar(n % 10)]
  }

  /** `String(n)` for any integer: a minus sign exactly for negative numbers,
      then the decimal digits of the magnitude. */
  function ShowInt(i: int): (r: string)
    ensures r != []
    ensures r[0] == '-' <==> i < 0
    ensures i < 0 ==> |r| > 1 && AllDigits(r[1..]) && r[1] != '0'
    ensures i >= 0 ==> AllDigits(r) && (r[0] == '0' ==> i == 0) && (|r| > 1 ==> r[0] != '0')
  {
    if i < 0 then "-" + ShowNat(-i) else ShowNat(i)
  }

  /** `String(x)` for the result of `parseInt`, where NaN prints as "NaN". */
  function ShowNumber(x: Option<int>): string {
    match x
    case None => "NaN"
    case Some(i) => ShowInt(i)
  }

  // ----- Lemmas -----

  /** White space in front of a string that does not itself start with white
      space is exactly what SkipWhite removes. */
  lemma {:induction false} SkipWhitePadded(w: string, x: string)
    requires AllWhite(w)
    requires x == [] || !IsWhite(x[0])
    ensures SkipWhite(w + x) == x
  {
    if w != [] {
      assert (w + x)[0] == w[0];
      assert (w + x)[1..] == w[1..] + x;
      SkipWhitePadded(w[1..], x);
    } else {
      assert w + x == x;
    }
  }

  /** White space after a string that does not itself end with white space is
      exactly what TrimEnd removes. */
  lemma {:induction false} TrimEndPadded(x: string, w: string)
    requires AllWhite(w)
    requires x == [] || !IsWhite(x[|x| - 1])
    ensures TrimEnd(x + w) == x
  {
    if w != [] {
      var s := x + w;
      assert s[|s| - 1] == w[|w| - 1];
      assert s[..|s| - 1] == x + w[..|w| - 1];
      TrimEndPadded(x, w[..|w| - 1]);
    } else {
      assert x + w == x;
    }
  }

  /** Trim characterised independently: padding a string whose ends are not
      white space with white space on both sides and trimming gives it back. */
  lemma {:induction false} TrimPadded(w1: string, t: string, w2: string)
    requires AllWhite(w1) && AllWhite(w2)
    requires t == [] || (!IsWhite(t[0]) && !IsWhite(t[|t| - 1]))
    ensures Trim(w1 + t + w2) == t
  {
    if t == [] {
      assert w1 + t + w2 == w1 + w2;
      assert AllWhite(w1 + w2) by {
        forall i | 0 <= i < |w1 + w2| ensures IsWhite((w1 + w2)[i]) {
          if i < |w1| { assert (w1 + w2)[i] == w1[i]; } else { assert (w1 + w2)[i] == w2[i - |w1|]; }
        }
      }
    } else {
      assert w1 + t + w2 == w1 + (t + w2);
      SkipWhitePadded(w1, t + w2);
      TrimEndPadded(t, w2);
    }
  }

  /** A string with no white space at either end is its own trim. */
  lemma TrimUnpadded(t: string)
    requires t == [] || (!IsWhite(t[0]) && !IsWhite(t[|t| - 1]))
    ensures Trim(t) == t
  {
    var none: string := [];
    assert none + t + none == t;
    TrimPadded(none, t, none);
  }

  /** Trimming twice is trimming once. */
  lemma TrimIdempotent(s: string)
    ensures Trim(Trim(s)) == Trim(s)
  {
    TrimUnpadded(Trim(s));
  }

  /** The longest digit prefix of a run of digits followed by a non-digit is
      that run. */
  lemma {:induction false} DigitPrefixOf(d: string, rest: string)
    requires AllDigits(d)
    requires rest == [] || !IsDigit(rest[0])
    ensures DigitPrefix(d + rest) == d
  {
    if d != [] {
      assert (d + rest)[0] == d[0];
      assert (d + rest)[1..] == d[1..] + rest;
      DigitPrefixOf(d[1..], rest);
      assert [d[0]] + d[1..] == d;
    } else {
      assert d + rest == rest;
    }
  }

  /** After the white space: digits followed by a non-digit read as the
      value of the digits. */
  lemma ParseSignedUnsigned(t: string, d: string, rest: string)
    requires t == d + rest
    requires d != [] && AllDigits(d)
    requires rest == [] || !IsDigit(rest[0])
    ensures ParseSigned(t) == Some(DigitsValue(d))
  {
    assert t[0] == d[0];
    DigitPrefixOf(d, rest);
  }

  /** After the white space: a sign, digits and a non-digit read as the
      signed value of the digits. */
  lemma ParseSignedWithSign(t: string, sign: char, d: string, rest: string)
    requires t == [sign] + (d + rest)
    requires IsSign(sign)
    requires d != [] && AllDigits(d)
    requires rest == [] || !IsDigit(rest[0])
    ensures ParseSigned(t) == Some(if sign == '-' then -(DigitsValue(d) as int) else DigitsValue(d))
  {
    assert t[0] == sign;
    assert t[1..] == d + rest;
    DigitPrefixOf(d, rest);
  }

  /** parseInt accepts an unsigned number: white space, a non-empty run of
      digits and anything not starting with a digit parse to the value of the
      digits. */
  lemma ParseInt10Unsigned(s: string, w: string, d: string, rest: string)
    requires s == w + d + rest
    requires AllWhite(w)
    requires d != [] && AllDigits(d)
    requires rest == [] || !IsDigit(rest[0])
    ensures ParseInt10(s) == Some(DigitsValue(d))
  {
    var body := d + rest;
    assert s == w + body;
    assert body[0] == d[0];
    SkipWhitePadded(w, body);
    ParseSignedUnsigned(body, d, rest);
  }

  /** parseInt accepts a signed number: white space, a sign, a non-empty run
      of digits and anything not starting with a digit parse to the value of
      the digits, negated after a minus sign. */
  lemma ParseInt10Signed(s: string, w: string, sign: char, d: string, rest: string)
    requires s == w + [sign] + d + rest
    requires AllWhite(w)
    requires IsSign(sign)
    requires d != [] && AllDigits(d)
    requires rest == [] || !IsDigit(rest[0])
    ensures ParseInt10(s) == Some(if sign == '-' then -(DigitsValue(d) as int) else DigitsValue(d))
  {
    var body := [sign] + (d + rest);
    assert s == w + body;
    assert body[0] == sign;
    SkipWhitePadded(w, body);
    ParseSignedWithSign(body, sign, d, rest);
  }

  /** parseInt gives NaN when, after the white space, the first character is
      neither a digit nor a sign. */
  lemma ParseInt10NoDigits(s: string, w: string, rest: string)
    requires s == w + rest
    requires AllWhite(w)
    requires rest == [] || (!IsDigit(rest[0]) && !IsWhite(rest[0]) && !IsSign(rest[0]))
    ensures ParseInt10(s) == None
  {
    var none: string := [];
    SkipWhitePadded(w, rest);
    assert none + rest == rest;
    DigitPrefixOf(none, rest);
  }

  /** After the white space: a sign not followed by a digit reads as NaN. */
  lemma ParseSignedBareSign(t: string, sign: char, rest: string)
    requires t == [sign] + rest
    requires IsSign(sign)
    requires rest == [] || !IsDigit(rest[0])
    ensures ParseSigned(t) == None
  {
  }

  /** parseInt gives NaN when a sign is not followed by a digit. */
  lemma ParseInt10SignNoDigits(s: string, w: string, sign: char, rest: string)
    requires s == w + [sign] + rest
    requires AllWhite(w)
    requires IsSign(sign)
    requires rest == [] || !IsDigit(rest[0])
    ensures ParseInt10(s) == None
  {
    var body := [sign] + rest;
    assert s == w + body;
    assert body[0] == sign;
    SkipWhitePadded(w, body);
    ParseSignedBareSign(body, sign, rest);
  }

  /** Reading back the digits ShowNat writes gives the number. */
  lemma {:induction false} ShowNatValue(n: nat)
    ensures DigitsValue(ShowNat(n)) == n
  {
    var r := ShowNat(n);
    if n >= 10 {
      ShowNatValue(n / 10);
      assert r[..|r| - 1] == ShowNat(n / 10);
      assert r[|r| - 1] == DigitChar(n % 10);
    } else {
      assert r[..|r| - 1] == [];
    }
  }

  /** `parseInt(String(n), 10) === n` for a non-negative integer. */
  lemma ParseShowNat(s: string, n: nat)
    requires s == ShowNat(n)
    ensures ParseInt10(s) == Some(n)
  {
    var none: string := [];
    ShowNatValue(n);
    assert s == none + s + none;
    ParseInt10Unsigned(s, none, s, none);
  }

  /** `parseInt("-" + String(n), 10) === -n`. */
  lemma ParseShowNegated(s: string, n: nat)
    requires s == "-" + ShowNat(n)
    ensures ParseInt10(s) == Some(-(n as int))
  {
    var d, none: string := ShowNat(n), [];
    ShowNatValue(n);
    assert s == none + ['-'] + d + none;
    ParseInt10Signed(s, none, '-', d, none);
  }

  /** Round trip of persistence: `parseInt(String(i), 10) === i`. */
  lemma ParseShowInt(i: int)
    ensures ParseInt10(ShowInt(i)) == Some(i)
  {
    if i < 0 {
      ParseShowNegated(ShowInt(i), -i);
    } else {
      ParseShowNat(ShowInt(i), i);
    }
  }
}

=== FILE: scenarios.dfy ===
/**
  Concrete sessions worked through the model: the wagers, bet validation and
  balance recovery on fixed inputs and fixed random draws.
 */
module Scenarios {
  import opened Wrappers
  import opened JsText
  import Activity
  import Game
  import App

  /** parseInt of a few literal texts. */
  lemma ReadsAs(text: string, n: int)
    requires (text, n) in {("50", 50), ("10", 10), ("4", 4), ("0", 0), ("-5", -5), ("1001", 1001)}
    ensures ParseInt10(text) == Some(n)
  {
    if n == 50 {
      assert ShowInt(50) == "50" by { assert ShowNat(5) == "5"; }
    } else if n == 10 {
      assert ShowInt(10) == "10" by { assert ShowNat(1) == "1"; }
    } else if n == 1001 {
      assert ShowInt(1001) == "1001" by {
        assert ShowNat(1) == "1";
        assert ShowNat(10) == "10";
        assert ShowNat(100) == "100";
      }
    } else {
      assert ShowInt(n) == text;
    }
    ParseShowInt(n);
  }

  /** "abc" is not a number. */
  lemma NotANumber(text: string)
    requires text == "abc"
    ensures ParseInt10(text) == None
  {
  }

  /** Heads chosen, bet "50" on 1000 points, the coin shows heads: the bet is
      debited and twice the bet credited: 1050 points. */
  lemma CoinFlipWin(s: Game.Session, bet: string, time: string)
    requires s == Game.Session(1000, Some(Game.Heads), false, [])
    requires bet == "50"
    ensures Game.PlayCoinFlip(s, bet, 0, time).Ok?
    ensures Game.PlayCoinFlip(s, bet, 0, time).value.balance == 1050
  {
    ReadsAs(bet, 50);
    assert Game.ValidateBet(bet, s.balance) == Ok(50);
    assert Game.CoinOutcome(0) == Game.Heads;
  }

  /** The same play when the coin shows tails: 950 points. */
  lemma CoinFlipLoss(s: Game.Session, bet: string, time: string)
    requires s == Game.Session(1000, Some(Game.Heads), false, [])
    requires bet == "50"
    ensures Game.PlayCoinFlip(s, bet, 1, time).Ok?
    ensures Game.PlayCoinFlip(s, bet, 1, time).value.balance == 950
  {
    ReadsAs(bet, 50);
    assert Game.ValidateBet(bet, s.balance) == Ok(50);
    assert Game.CoinOutcome(1) == Game.Tails;
  }

  /** String(50) and String(100). */
  lemma ShowFiftyAndHundred()
    ensures ShowInt(50) == "50" && ShowInt(100) == "100"
  {
    assert ShowNat(5) == "5";
    assert ShowNat(1) == "1";
    assert ShowNat(10) == "10";
  }

  /** The feed text of a 50-point flip on heads that shows heads. */
  lemma CoinTextWon()
    ensures Game.CoinText(50, Game.Heads, true) == "Coin Flip: bet 50, result HEADS \U{2014} WON 100"
  {
    ShowFiftyAndHundred();
    assert Game.Verdict(true, 100, 50) == " \U{2014} WON 100";
  }

  /** The feed text of a 50-point flip on heads that shows tails. */
  lemma CoinTextLost()
    ensures Game.CoinText(50, Game.Tails, false) == "Coin Flip: bet 50, result TAILS \U{2014} LOST 50"
  {
    ShowFiftyAndHundred();
    assert Game.Verdict(false, 100, 50) == " \U{2014} LOST 50";
  }

  /** The winning flip above records exactly one feed line: the bet, HEADS,
      and "WON 100" (twice the bet). */
  lemma CoinFlipWinEntry(s: Game.Session, bet: string, time: string)
    requires s == Game.Session(1000, Some(Game.Heads), false, [])
    requires bet == "50"
    ensures Game.PlayCoinFlip(s, bet, 0, time).Ok?
    ensures Game.PlayCoinFlip(s, bet, 0, time).value.log
         == [Activity.Entry(time, "Coin Flip: bet 50, result HEADS \U{2014} WON 100")]
  {
    CoinFlipWin(s, bet, time);
    ReadsAs(bet, 50);
    var text := Game.CoinText(50, Game.Heads, true);
    assert Game.PlayCoinFlip(s, bet, 0, time).value.log == Activity.Record(s.log, Activity.Entry(time, text));
    CoinTextWon();
  }

  /** The losing flip above records exactly one feed line: the bet, TAILS,
      and "LOST 50" (the bet). */
  lemma CoinFlipLossEntry(s: Game.Session, bet: string, time: string)
    requires s == Game.Session(1000, Some(Game.Heads), false, [])
    requires bet == "50"
    ensures Game.PlayCoinFlip(s, bet, 1, time).Ok?
    ensures Game.PlayCoinFlip(s, bet, 1, time).value.log
         == [Activity.Entry(time, "Coin Flip: bet 50, result TAILS \U{2014} LOST 50")]
  {
    CoinFlipLoss(s, bet, time);
    ReadsAs(bet, 50);
    var text := Game.CoinText(50, Game.Tails, false);
    assert Game.PlayCoinFlip(s, bet, 1, time).value.log == Activity.Record(s.log, Activity.Entry(time, text));
    CoinTextLost();
  }

  /** Pick "4", bet "10" on 500 points: rolling 4 leaves 550 (500 - 10 + 60),
      rolling 1 leaves 490. */
  lemma DiceRollFromFiveHundred(s: Game.Session, bet: string, pick: string, time: string)
    requires s == Game.Session(500, None, false, [])
    requires bet == "10" && pick == "4"
    ensures Game.PlayDiceRoll(s, bet, pick, 4, time).Ok?
    ensures Game.PlayDiceRoll(s, bet, pick, 4, time).value.balance == 550
    ensures Game.PlayDiceRoll(s, bet, pick, 1, time).Ok?
    ensures Game.PlayDiceRoll(s, bet, pick, 1, time).value.balance == 490
  {
    ReadsAs(bet, 10);
    ReadsAs(pick, 4);
  }

  /** String(n) of the small numbers the dice lines below print. */
  lemma ShowDiceNumbers()
    ensures ShowInt(3) == "3" && ShowInt(4) == "4"
    ensures ShowInt(10) == "10" && ShowInt(60) == "60"
  {
    assert ShowNat(1) == "1";
    assert ShowNat(6) == "6";
  }

  /** The feed text of a 10-point roll that picks 4 and rolls 4. */
  lemma DiceTextWon()
    ensures Game.DiceText(10, Some(4), 4, true)
         == "Dice Roll: bet " + "10" + ", picked " + "4" + ", rolled " + "4" + " \U{2014} WON " + "60"
  {
    ShowDiceNumbers();
  }

  /** The feed text of a 10-point roll whose pick is not a number: the pick
      prints as "NaN" and the roll loses. */
  lemma DiceTextNaN()
    ensures Game.DiceText(10, None, 3, false)
         == "Dice Roll: bet " + "10" + ", picked " + "NaN" + ", rolled " + "3" + " \U{2014} LOST " + "10"
  {
    ShowDiceNumbers();
  }

  /** A 10-point roll on 500 points and an empty feed with the pick "abc":
      accepted, the bet is lost, and the one feed line is the dice line with
      no parsed pick, which DiceTextNaN spells out as "picked NaN". */
  lemma DiceRollNaNPick(s: Game.Session, bet: string, pick: string, time: string)
    requires s.balance == 500 && s.log == []
    requires bet == "10" && pick == "abc"
    ensures Game.PlayDiceRoll(s, bet, pick, 3, time).Ok?
    ensures Game.PlayDiceRoll(s, bet, pick, 3, time).value.balance == 490
    ensures Game.PlayDiceRoll(s, bet, pick, 3, time).value.log
         == [Activity.Entry(time, Game.DiceText(10, None, 3, false))]
  {
    ReadsAs(bet, 10);
    NotANumber(pick);
  }

  /** "abc", "0" and "-5" are not valid bets in either game, and "1001" on a
      balance of 1000 is refused for lack of funds. */
  lemma BadBetsRefused(s: Game.Session, bet: string, time: string)
    requires s == Game.Session(1000, Some(Game.Tails), false, [])
    requires bet in {"abc", "0", "-5", "1001"}
    ensures Game.PlayCoinFlip(s, bet, 0, time).Err?
    ensures Game.PlayDiceRoll(s, bet, "3", 3, time).Err?
    ensures Game.PlayDiceRoll(s, bet, "3", 3, time).error
         == (if bet == "1001" then Game.InsufficientFunds else Game.InvalidBet)
    ensures Game.PlayCoinFlip(s, bet, 0, time).error
         == (if bet == "1001" then Game.InsufficientFunds else Game.InvalidBet)
  {
    if bet == "abc" {
      NotANumber(bet);
    } else if bet == "0" {
      ReadsAs(bet, 0);
    } else if bet == "-5" {
      ReadsAs(bet, -5);
    } else {
      ReadsAs(bet, 1001);
    }
  }

  /** A corrupted or missing stored balance falls back to the start balance;
      a valid one is adopted exactly. */
  lemma LoadBalanceExamples(stored: string)
    requires stored in {"-5", "abc", "1001"}
    ensures App.LoadBalance(None, Game.StartBalance) == 1000
    ensures App.LoadBalance(Some(stored), Game.StartBalance) == if stored == "1001" then 1001 else 1000
  {
    if stored == "abc" {
      NotANumber(stored);
    } else if stored == "-5" {
      ReadsAs(stored, -5);
    } else {
      ReadsAs(stored, 1001);
    }
  }
}

=== FILE: wrappers.dfy ===
/** Failure-carrying datatypes shared by the rest of the model. */
module Wrappers {

  /** A value that may be absent: a missing storage key, or JavaScript's NaN
      coming out of a failed integer parse. */
  datatype Option<+T> = None | Some(value: T)

  /** The outcome of an event handler: the new state, or the reason it was
      turned down. */
  datatype Result<+R, +E> = Ok(value: R) | Err(error: E)
}
